=== FILE: README.md ===
# Tab bar: ordering and drag state machine

A Dafny model of the tab bar of a small business-application shell. The bar shows
a strip of pinned tabs and an overflow list of unpinned tabs. A tab can be pinned
or unpinned with a click. It can be dragged to another slot of its own list. It
cannot be dragged into the other list: dropping it there shows an error banner.
After the window is resized to at most 1024×1366, a press must be held 2000 ms,
or released outside every tab, before a drag starts; at mount the delay is 0.

The model has six modules:

- `Wrappers`: the `Option` type used for optional values (`nextIndex`, the
  selection, the banner, the pending timer).

- `Catalog` (`src/constantsAndTypes.ts`): the fixed registry of 13 tabs
  (`id`, `title`, an opaque `Icon`, default `isPinned`) and the `SelectedTab`
  record, with lemmas about ids, titles and the default split.
- `ArraySplice`: the part of JavaScript's `Array.prototype.splice` the component
  uses. This includes start clamping and the pair of the array left behind and
  the removed elements.
- `TabView` (`src/Tab.tsx`, pure): a tab's class-name tokens while a drag is in
  progress, the active-route match (strip `\W`, `\s`, `\d`, then a case-sensitive
  `includes`), and the callback each button dispatches.
- `App` (`src/App.tsx`): the `Main` component. Its handlers are first written as
  functions from one `MainState` to the next; these functions carry the
  properties. Class `Main` keeps the same state in fields. Its methods update the
  fields in place, as the handlers do, and each is proved to produce exactly the
  state its function gives. The invariant every handler keeps is this: the two
  lists together hold each catalog tab exactly once, and the pinned list is never
  empty. `Run` folds a sequence of `Event`s, and the invariant is proved for
  every state reachable from mounting.
- `Distinct`: how "no repeats" relates to multiset counts.

How the browser's side is represented:

- A hovered or pressed tab container is a `Slot`: its `id` (the slot index) and
  whether it has the `pinned` class. `None` stands for "no `.tab-container`
  ancestor".
- The `timeout` ref is an optional pending `Timer`. `Press` stores one, `Release`
  clears it, and a `TimeoutElapsed` event fires it.
- The 5000 ms auto-clear of the banner is the explicit `DismissError` event.
- `position.tabIsBeingDragged` is a flag. The window `mousemove` listener sets it
  to "a tab is selected".
- The width handed to `initiateDrag` and the viewport size handed to the resize
  rule are plain integer parameters.

React applies state updates after the handler returns. So `end` decides from the
selection and flag it started with, even though it calls `reset` first. The model
does the same.

Where the code departs from what a reader of a tab bar might expect, the model
follows the code:

- A pinned tab is appended at the end of the pinned list.
- Unpinning the last pinned tab is a silent no-op, not a separate outcome.
- A hovered slot is found from the pointer's target element, not by rectangle
  hit-testing.
- There is no persistence.
- The active-route match is case-sensitive and also strips digits. It keeps only
  ASCII letters and `_`. A title's `%20`-encoded spaces therefore vanish
  (`StripIgnoresEncodedSpaces`).
- A hover over no tab leaves the drop target unchanged.
- `reset` does not cancel the press timer. A press released outside every tab
  therefore still arms that tab when the timer fires, and the next pointer move
  makes the drag live with no button held (`ReleaseOutsideStillDrags`).
- `Tab.tsx` reads `nextTitle` and `isBeingDragged` from its `selectedTab` prop.
  The `SelectedTab` type does not declare them, so the prop is its own record,
  `DragView`.
- The class-name template prints `false` when a `&&` fails, and `ClassTokens`
  keeps that token.
- `App.tsx` has its own copy of the catalog without ids (`LocalTabs`). It is
  proved to agree entry by entry with the shared catalog, from which the lists
  are drawn.

## Model

| member | source | states |
|---|---|---|
| `ArraySplice.StartOf` | src/App.tsx:134 | the position `splice` starts at: an in-range start is kept, a start past the end moves to the end, a negative start counts from the end and stops at 0 |
| `ArraySplice.Splice` | src/App.tsx:134 | `splice(start, deleteCount, ...items)` removes the `min(deleteCount, len - k)` elements at the clamped start `k`, puts `items` there and keeps the prefix and suffix; the removed elements and the result together hold the same multiset as the input and `items` |
| `ArraySplice.RemoveAt` | src/App.tsx:134 | `splice(i, 1)` inside the array shortens it by one, shifts every later element down and removes exactly `s[i]` from the multiset |
| `ArraySplice.InsertAt` | src/App.tsx:153 | `splice(j, 0, x)` puts `x` at `j`, or at the end when `j` is past it, shifts the rest up and adds exactly `x` to the multiset |
| `ArraySplice.SpliceOne` | src/App.tsx:134 | `splice(i, 1)` inside the array removes and returns exactly `s[i]`; past the end it returns nothing and leaves the array as it was |
| `ArraySplice.RemoveAtInjective` | src/App.tsx:151-153 | two arrays that agree at `k` and agree once `k` is removed are equal |
| `ArraySplice.InsertAtRemoveAt` | src/App.tsx:151-153 | taking an element out and putting it back at the same index restores the array |
| `ArraySplice.RemoveAtInsertAt` | src/App.tsx:151-153 | inserting and then removing at the landing index restores the array |
| `Catalog.CatalogIds` | src/constantsAndTypes.ts:10-89 | the catalog has 13 entries with ids 1..13 in ascending order |
| `Catalog.CatalogPinFlags` | src/constantsAndTypes.ts:12-88 | `isPinned` holds exactly for ids 1-4, which are the first four entries |
| `Catalog.CatalogTitles` | src/constantsAndTypes.ts:13-85 | every title is non-empty and no two titles are equal |
| `Catalog.CatalogDistinct` | src/constantsAndTypes.ts:10-89 | no catalog entry occurs twice |
| `Catalog.InitialSplit` | src/constantsAndTypes.ts:10-89 | the first four entries are all pinned, the rest are all unpinned, and together they are the catalog |
| `App.LocalCatalogAgrees` | src/App.tsx:18-84 | the component's local catalog has the same titles, icons and pin flags as the shared one, entry by entry |
| `TabView.ClassTokens` | src/Tab.tsx:24 | `next-tab` applies iff the drag is live, `nextTitle` equals the title and the lists match; `forbidden` is the same with the lists differing; `dragging` applies iff the drag is live, the index matches and the lists match; never both `next-tab` and `forbidden`; `pinned` iff the tab is pinned |
| `TabView.StrippedIffNotKept` | src/Tab.tsx:30 | `(\W\|\s\|\d)` matches exactly the characters other than ASCII letters and `_`, and `\s` adds nothing to `\W` |
| `TabView.Strip` | src/Tab.tsx:30 | the stripped string is no longer than the input, holds no digit, no white space and only word characters, and every character it holds comes from the input |
| `TabView.StripAppend` | src/Tab.tsx:30 | stripping distributes over concatenation |
| `TabView.StripFixesKept` | src/Tab.tsx:30 | a string of ASCII letters and `_` is left unchanged |
| `TabView.StripIdempotent` | src/Tab.tsx:30 | stripping twice equals stripping once |
| `TabView.EncodeSpaces` | src/App.tsx:255 | the URL path the browser makes of a `NavLink` target `/${title}` (also App.tsx:290); for titles of ASCII letters and spaces, as every catalog title is, only spaces are encoded, as `%20`: the result has no space and is never shorter |
| `TabView.EncodeKeepsSpaceless` | src/App.tsx:255 | a title without spaces is its own encoding, so the encoding rewrites only spaces |
| `TabView.StripIgnoresEncodedSpaces` | src/Tab.tsx:30 | a title and its `%20`-encoded form strip to the same string |
| `TabView.OccursAtStart` | src/Tab.tsx:30 | an occurrence at position 0 is exactly a prefix |
| `TabView.OccursInTail` | src/Tab.tsx:30 | an occurrence one place further in the haystack is exactly an occurrence in its tail |
| `TabView.Includes` | src/Tab.tsx:30 | `hay.includes(needle)`: a prefix, the empty needle included, is always found, and a needle that is found is no longer than the haystack |
| `TabView.IncludesIff` | src/Tab.tsx:30 | `includes` is true exactly when the needle occurs at some position of the haystack |
| `TabView.IsActive` | src/Tab.tsx:30 | a tab is active exactly when its stripped title occurs in the stripped path |
| `TabView.ActiveOnOwnRoute` | src/Tab.tsx:30 | every tab is active on `/` + its title, with or without encoded spaces |
| `TabView.ActiveOnSameLengthSegment` | src/Tab.tsx:30 | on a one-segment letter path as long as the title, the tab is active iff the segment equals the title, so the match is case-sensitive (`/dashboard` does not activate `Dashboard`) |
| `TabView.TitleClick` | src/Tab.tsx:31 | the title button navigates to a pinned tab's title; on an unpinned tab it calls `addToPinnedTabs(index, title)` without `dontNavigate` |
| `TabView.SideClick` | src/Tab.tsx:36-43 | the side button calls `removeFromPinnedTabs(index, title)` on a pinned tab and `addToPinnedTabs(index, title, true)` on an unpinned one; it never navigates |
| `TabView.ButtonsAgree` | src/Tab.tsx:31-43 | on an unpinned tab both buttons pin the same slot and differ only in `dontNavigate`; a pinned tab is never pinned again, and the title button never unpins |
| `App.Initial` | src/App.tsx:112-122 | the mounted state: the catalog's four pinned tabs followed by the rest, every tab in the pinned list flagged pinned and every other one not; no selection, banner, pending timer or live drag; delay 0 |
| `App.ErrorMessage` | src/App.tsx:124-125 | has no ensures: its body is the template of App.tsx:125, naming the source list (`ListName`) and then the other one; its two texts are the two instantiations of that template |
| `App.ErrorMessagesDiffer` | src/App.tsx:125 | the banner for a pinned source differs from the banner for an unpinned source |
| `App.ErrorTexts` | src/App.tsx:125 | the two banner texts, written out: "Cannot move pinned tab to unpinned tabs" and "Cannot move unpinned tab to pinned tabs" |
| `App.ActivationDelay` | src/App.tsx:219-221 | the delay is 2000 exactly when `width <= 1024` and `height <= 1366`, and 0 otherwise |
| `App.AddToPinned` | src/App.tsx:132-138 | an in-range index moves that unpinned tab to the end of the pinned list; an out-of-range index changes nothing; the joint multiset of tabs is preserved and nothing but the lists changes |
| `App.RemoveFromPinned` | src/App.tsx:140-147 | out of range or with one pinned tab left it is a no-op, so the pinned list never empties; otherwise it moves the tab to the end of the unpinned list and preserves the joint multiset |
| `App.InsertStart` | src/App.tsx:153 | `Number(tab?.nextIndex)` used as a splice start: a missing `nextIndex` (NaN) becomes 0, a present one is used as it is |
| `App.Landing` | src/App.tsx:153 | the slot the moved tab lands on is the splice clamp of that start to the shortened list, so always a slot of the list |
| `App.MovesOne` | src/App.tsx:149-155 | the reference description of a reorder: the tab at `index` sits at the landing slot and the others keep their order; a list that meets it is a permutation of the original |
| `App.ReorderTabs` | src/App.tsx:149-155 | the result moves the tab at `index` to `nextIndex`, clamped to the end of the shortened list (a missing `nextIndex` counts as 0); it is a permutation of the input; it returns the input unchanged when `index` is outside the list or `nextIndex == index` |
| `App.MovesOneUnique` | src/App.tsx:149-155 | the description of the reorder determines the resulting list completely |
| `App.ReinsertMovesOne` | src/App.tsx:151-154 | putting the taken-out tab back in at `nextIndex` moves exactly that tab and keeps the multiset; putting it back at its own index restores the list |
| `App.MoveToLast` | src/App.tsx:149-155 | reordering onto the last slot moves the tab to the end and keeps the order of the others |
| `App.Armed` | src/App.tsx:157-172 | with no tab at the slot nothing changes; otherwise the selection is that tab with `isPinned` of its list, `index` = `nextIndex` = the slot, `canMove` true and the given width, and the banner is cleared |
| `App.Pressed` | src/App.tsx:174-178 | a press on a tab container schedules arming that slot with the current delay; a press elsewhere changes nothing |
| `App.TimerFires` | src/App.tsx:177 | a pending timer is consumed and arms its slot; with none pending nothing changes |
| `App.Moved` | src/App.tsx:216-218 | after a pointer move the drag is live exactly when a tab is selected |
| `App.Hovered` | src/App.tsx:180-192 | with no selection or no slot nothing changes; a slot of the same list becomes the target and allows the drop; a slot of the other list forbids the drop and keeps the target |
| `App.Cleared` | src/App.tsx:209-213 | the selection is dropped and the drag is no longer live; nothing else changes |
| `App.Released` | src/App.tsx:199-207 | selection, live flag and timer are always cleared; with no live drag the lists and banner stay; a forbidden drop keeps both lists and raises "Cannot move pinned tab to unpinned tabs" or its reverse, chosen by the source list; an allowed drop moves the tab within the source list only |
| `App.ErrorCleared` | src/App.tsx:128-130 | the banner is cleared and nothing else changes |
| `App.Resized` | src/App.tsx:219-221 | only the delay changes, to the value of the resize rule |
| `App.Step` | src/App.tsx:126-300 | sends each event to its handler: clicks, presses, hovers and releases as the markup wires them, the press timer's callback (App.tsx:177), the window's mousemove and resize listeners (App.tsx:215-224) and the 5000 ms banner auto-clear (App.tsx:126); only pin and unpin clicks and a release can change the lists, and only a resize can change the delay |
| `App.Run` | src/App.tsx:232-300 | handles events in order; a sequence without pin, unpin or release events leaves both lists unchanged, and one without resizes leaves the delay unchanged |
| `App.InitialInv` | src/App.tsx:112-113 | the mounted state splits the catalog, with four pinned tabs |
| `App.ReleasedKeepsSplit` | src/App.tsx:199-207 | releasing keeps each tab in exactly one list and the pinned list non-empty |
| `App.StepKeepsSplit` | src/App.tsx:132-221 | every handler keeps the split of the catalog between the lists and the non-empty pinned list |
| `App.RunKeepsSplit` | src/App.tsx:132-221 | any sequence of events keeps that invariant |
| `App.SplitOfDistinct` | src/App.tsx:112-113 | two lists whose joint multiset is a repeat-free catalog contain each catalog entry in exactly one list, once |
| `App.ReachableKeepsPartition` | src/App.tsx:109-230 | every state reachable from mounting satisfies the invariant; in it each catalog tab is in exactly one list, no other tab is in either, and neither list repeats a tab |
| `App.TapNeverDrags` | src/App.tsx:174-207 | a press released over a tab before its timer fires selects nothing and moves nothing, even when the timer event comes later |
| `App.ReleaseOutsideStillDrags` | src/App.tsx:174-233 | a press released outside every tab runs only `reset`, which leaves the timer pending: when it fires the pressed tab is selected, and the next pointer move makes the drag live, with both lists unchanged |
| `App.LongPressArms` | src/App.tsx:174-178 | a press held until the timer fires selects the pressed tab, if its list has one at that slot |
| `App.PickUpSelects` | src/App.tsx:157-218 | after press, timer and a pointer move, the pressed tab is selected, live and movable, and the lists are unchanged |
| `App.CrossListDropRejected` | src/App.tsx:199-207 | dragging onto a slot of the other list leaves both lists unchanged and raises the banner for the source list |
| `App.SameListDropReorders` | src/App.tsx:199-207 | dragging onto a slot of the same list reorders that list by `reorderTabs` and leaves the other list unchanged |
| `App.DropOnLastSlot` | src/App.tsx:149-207 | dragging a pinned tab onto the last pinned slot moves it to the end of the pinned list, keeps the others in order and leaves the unpinned list alone |
| `App.RunCons` | src/App.tsx:109-230 | the first event of a sequence is handled first, on the state it finds |
| `App.UnpinFirstOnce` | src/App.tsx:140-147 | one unpin click on the first pinned tab shortens the pinned list by one, or leaves the only tab, and keeps the last pinned tab last |
| `App.UnpinningStopsAtLastTab` | src/App.tsx:140-147 | repeatedly unpinning the first tab leaves exactly the last pinned tab |
| `App.LastPinnedTabStays` | src/App.tsx:140-147 | from the mounted bar, unpinning stops at Accounting |
| `App.Main.constructor` | src/App.tsx:112-122 | the mounted component holds the initial state and satisfies the invariant |
| `App.Main.AddToPinnedTabs` | src/App.tsx:132-138 | updates the fields in place to exactly `AddToPinned` of the old state and keeps the invariant |
| `App.Main.RemoveFromPinnedTabs` | src/App.tsx:140-147 | updates the fields in place to exactly `RemoveFromPinned` of the old state and keeps the invariant |
| `App.Main.InitiateDrag` | src/App.tsx:157-172 | updates the fields to exactly `Armed` of the old state and keeps the invariant |
| `App.Main.Start` | src/App.tsx:174-178 | updates the fields to exactly `Pressed` of the old state and keeps the invariant |
| `App.Main.TimerElapsed` | src/App.tsx:177 | updates the fields to exactly `TimerFires` of the old state and keeps the invariant |
| `App.Main.HandleMove` | src/App.tsx:180-192 | updates the fields to exactly `Hovered` of the old state and keeps the invariant |
| `App.Main.PointerMoved` | src/App.tsx:216-218 | updates the fields to exactly `Moved` of the old state and keeps the invariant |
| `App.Main.End` | src/App.tsx:199-207 | updates the fields to exactly `Released` of the old state and keeps the invariant |
| `App.Main.Reset` | src/App.tsx:209-213 | updates the fields to exactly `Cleared` of the old state and keeps the invariant |
| `App.Main.ClearError` | src/App.tsx:128-130 | updates the fields to exactly `ErrorCleared` of the old state and keeps the invariant |
| `App.Main.Resize` | src/App.tsx:219-221 | updates the fields to exactly `Resized` of the old state and keeps the invariant |

## Left out

- Rendering is not modelled: JSX, icons, CSS, the "more tabs" toggle
  (`showMoreTabs`) and the drag ghost (`Box`, `src/DragBox.tsx`). The ghost's
  pointer coordinates are dropped too; only the `tabIsBeingDragged` flag is kept.
- DOM side channels are not modelled: the `next-tab`/`forbidden` classes that
  `handleMove`, `handleOut` and `reset` add to and remove from elements, the
  `closest` lookup (it becomes the optional `Slot`) and `clientWidth` (it becomes
  a parameter).
- Timers are events, not time. A second press replaces the single `timeout`
  handle. In the browser an earlier timer that is still pending would fire
  anyway; the model keeps only the latest.
- The timer callback in the browser calls the `initiateDrag` of the render in
  which the press happened, so it reads that render's lists. The model reads the
  current lists.
- Navigation is a foreign call and is not modelled: `navigate` in
  `removeFromPinnedTabs` (its target string too), `NavLink`, and `navigateToTab`,
  which appears only as a dispatched `Intent`.
- `TabView.IsSpace`: the Unicode space separators of `\s` are written out as a
  fixed list, as of current Unicode.
- Persistence, rectangle hit-testing, pinning at a chosen index and a separate
  "cannot unpin last tab" outcome are not part of this code, so the model has
  none of them.
- `App.Pressed`: the pending timer records the delay in force at the press, but
  the wait itself is not modelled. `TimeoutElapsed` may arrive at any time, so
  the delay that `Resized` sets is kept only as a value and changes no reachable
  behaviour.
- Mouse and touch events reach the same handlers and are not told apart. Only
  the window `mousemove` listener sets the live-drag flag, whichever device is
  used.

=== FILE: app.dfy ===
/**
 * The `Main` component of `src/App.tsx`: two ordered tab lists (pinned and
 * unpinned), the record of the tab being dragged, the error banner, the
 * long-press delay and the pending press timer, and the handlers that update
 * them.
 *
 * The handlers are first given as functions from one `MainState` to the next
 * (the specification, with the properties the component promises), then as the
 * methods of class `Main`, which update its fields in place and are proved to
 * produce exactly those states.
 */
module App {
  import opened Wrappers
  import opened Catalog
  import opened ArraySplice
  import opened Distinct

  /** A tab container under the pointer: its `id` (the slot index) and whether it
      carries the `pinned` class (which list it is rendered in). */
  datatype Slot = Slot(index: nat, isPinned: bool)

  /** A pending `setTimeout` that will arm a drag on `element` after `delay` ms. */
  datatype Timer = Timer(element: Slot, delay: int)

  /** The component's state: the two lists, `tab` (the selection), `error`,
      `delay`, `position.tabIsBeingDragged` and the `timeout` ref. */
  datatype MainState = MainState(
    pinned: seq<Tab>,
    unpinned: seq<Tab>,
    selected: Option<SelectedTab>,
    error: Option<string>,
    delay: int,
    beingDragged: bool,
    timer: Option<Timer>)

  const LongPressDelay: int := 2000
  const TouchMaxWidth: int := 1024
  const TouchMaxHeight: int := 1366

  /** The component file's own copy of the catalog: title, icon and default
      placement, without ids. The lists start as its first four entries and the rest. */
  const LocalTabs: seq<(string, Icon, bool)> := [
    ("Dashboard", IoGridOutline, true),
    ("Banking", PiBank, true),
    ("Telefonie", LuPhoneCall, true),
    ("Accounting", GoPersonAdd, true),
    ("Verkauf", BsShopWindow, false),
    ("Statistik", TfiPieChart, false),
    ("Post Office", AiOutlineMail, false),
    ("Administration", GoGear, false),
    ("Help", IoBookOutline, false),
    ("Warenbestand", IoCubeOutline, false),
    ("Auswallisten", IoListOutline, false),
    ("Einkauf", PiShoppingCart, false),
    ("Rechn", BsWindow, false)
  ]

  /** The local copy agrees entry by entry with the shared catalog, so the initial
      split can be drawn from the shared catalog. */
  lemma LocalCatalogAgrees()
    ensures |LocalTabs| == |Tabs|
    ensures forall i :: 0 <= i < |Tabs| ==> LocalTabs[i] == (Tabs[i].title, Tabs[i].icon, Tabs[i].isPinned)
  {
    forall i | 0 <= i < |Tabs| ensures LocalTabs[i] == (Tabs[i].title, Tabs[i].icon, Tabs[i].isPinned) {
      Positions(i);
    }
  }

  /** The state of a freshly mounted component: the catalog's pinned tabs, then the
      rest, with no selection, no banner, no pending timer and no delay. */
  function Initial(): (r: MainState)
    ensures |r.pinned| == PinnedByDefault && r.pinned + r.unpinned == Tabs
    ensures forall t :: t in r.pinned ==> t.isPinned
    ensures forall t :: t in r.unpinned ==> !t.isPinned
    ensures r.selected.None? && r.error.None? && r.timer.None? && !r.beingDragged && r.delay == 0
  {
    CatalogIds();
    InitialSplit();
    MainState(Tabs[..PinnedByDefault], Tabs[PinnedByDefault..], None, None, 0, false, None)
  }

  // ---------------------------------------------------------------------------
  // Pure pieces: the error text and the delay rule

  /** How the banner names a list. */
  function ListName(isPinned: bool): string {
    if isPinned then "pinned" else "unpinned"
  }

  /** The banner raised when a drop is refused; it names the list the drag came
      from, then the other one. */
  function ErrorMessage(sourceIsPinned: bool): string {
    "Cannot move " + ListName(sourceIsPinned) + " tab to " + ListName(!sourceIsPinned) + " tabs"
  }

  /** The banner tells the two directions apart. */
  lemma ErrorMessagesDiffer()
    ensures ErrorMessage(true) != ErrorMessage(false)
  {
    assert ErrorMessage(true)[12] == 'p';
    assert ErrorMessage(false)[12] == 'u';
  }

  /** The two banner texts, written out. */
  lemma ErrorTexts()
    ensures ErrorMessage(true) == "Cannot move pinned tab to unpinned tabs"
    ensures ErrorMessage(false) == "Cannot move unpinned tab to pinned tabs"
  {
  }

  /** The long-press delay applies on viewports no larger than a tablet in portrait. */
  function ActivationDelay(width: int, height: int): (d: int)
    ensures d == LongPressDelay <==> width <= TouchMaxWidth && height <= TouchMaxHeight
    ensures d == 0 <==> !(width <= TouchMaxWidth && height <= TouchMaxHeight)
  {
    if width <= TouchMaxWidth && height <= TouchMaxHeight then LongPressDelay else 0
  }

  // ---------------------------------------------------------------------------
  // Moving a tab between the lists

  /** `addToPinnedTabs(index)`: take the tab at `index` out of the unpinned list
      and append it to the pinned list; an index past the end changes nothing. */
  function AddToPinned(s: MainState, index: nat): (r: MainState)
    ensures index >= |s.unpinned| ==> r == s
    ensures index < |s.unpinned| ==>
      && r.pinned == s.pinned + [s.unpinned[index]]
      && r.unpinned == RemoveAt(s.unpinned, index)
    ensures multiset(r.pinned + r.unpinned) == multiset(s.pinned + s.unpinned)
    ensures |r.pinned| >= |s.pinned|
    ensures r.(pinned := s.pinned, unpinned := s.unpinned) == s
  {
    var taken := Splice(s.unpinned, index, 1, []);
    SpliceOne(s.unpinned, index);
    if |taken.removed| < 1 then s
    else
      s.(pinned := s.pinned + taken.removed, unpinned := taken.rest)
  }

  /** `removeFromPinnedTabs(index)`: take the tab at `index` out of the pinned list
      and append it to the unpinned list, unless the index is past the end or it
      is the only pinned tab. */
  function RemoveFromPinned(s: MainState, index: nat): (r: MainState)
    ensures index >= |s.pinned| || |s.pinned| <= 1 ==> r == s
    ensures index < |s.pinned| && |s.pinned| > 1 ==>
      && r.unpinned == s.unpinned + [s.pinned[index]]
      && r.pinned == RemoveAt(s.pinned, index)
    ensures multiset(r.pinned + r.unpinned) == multiset(s.pinned + s.unpinned)
    ensures |s.pinned| >= 1 ==> |r.pinned| >= 1
    ensures r.(pinned := s.pinned, unpinned := s.unpinned) == s
  {
    var taken := Splice(s.pinned, index, 1, []);
    SpliceOne(s.pinned, index);
    if |taken.removed| < 1 || |s.pinned| <= 1 then s
    else
      s.(pinned := taken.rest, unpinned := s.unpinned + taken.removed)
  }

  // ---------------------------------------------------------------------------
  // Reordering inside one list

  /** The start `splice` receives for `Number(nextIndex)`: `undefined` becomes NaN, which counts as 0. */
  function InsertStart(nextIndex: Option<nat>): (k: nat)
    ensures nextIndex.None? ==> k == 0
    ensures nextIndex.Some? ==> k == nextIndex.value
  {
    match nextIndex
    case None => 0
    case Some(j) => j
  }

  /** Where the moved element lands in a list of length `n`: the requested slot,
      clamped to the end of the shortened list. */
  function Landing(n: nat, nextIndex: Option<nat>): (k: nat)
    requires n > 0
    ensures k < n
    ensures k == StartOf(n - 1, InsertStart(nextIndex))
  {
    var j := InsertStart(nextIndex);
    if j <= n - 1 then j else n - 1
  }

  /** `after` is `before` with the element at `index` moved to the landing slot
      for `nextIndex`; an index past the end leaves the list as it is. */
  ghost predicate MovesOne<T>(before: seq<T>, after: seq<T>, index: nat, nextIndex: Option<nat>)
    ensures MovesOne(before, after, index, nextIndex) ==> multiset(after) == multiset(before)
  {
    && |after| == |before|
    && (index >= |before| ==> after == before)
    && (index < |before| ==>
          var k := Landing(|before|, nextIndex);
          after[k] == before[index] && RemoveAt(after, k) == RemoveAt(before, index))
  }

  /** The description is complete: at most one list is `before` with one element moved. */
  lemma MovesOneUnique<T>(before: seq<T>, a1: seq<T>, a2: seq<T>, index: nat, nextIndex: Option<nat>)
    requires MovesOne(before, a1, index, nextIndex) && MovesOne(before, a2, index, nextIndex)
    ensures a1 == a2
  {
    if index < |before| {
      RemoveAtInjective(a1, a2, Landing(|before|, nextIndex));
    }
  }

  /** `reorderTabs(prev)`: splice the selected tab out at `index` and back in at
      `nextIndex`. The result is a permutation of `prev` that moves that one tab. */
  function ReorderTabs<T>(prev: seq<T>, index: nat, nextIndex: Option<nat>): (r: seq<T>)
    ensures MovesOne(prev, r, index, nextIndex)
    ensures multiset(r) == multiset(prev)
    ensures nextIndex == Some(index) ==> r == prev
  {
    var taken := Splice(prev, index, 1, []);
    SpliceOne(prev, index);
    if |taken.removed| < 1 then prev
    else
      ReinsertMovesOne(prev, index, nextIndex);
      Splice(taken.rest, InsertStart(nextIndex), 0, taken.removed).rest
  }

  /** The list `reorderTabs` builds once the tab has been taken out: it moves one
      tab, keeps the multiset, and dropping in place changes nothing. */
  lemma ReinsertMovesOne<T>(prev: seq<T>, index: nat, nextIndex: Option<nat>)
    requires index < |prev|
    ensures var r := InsertAt(RemoveAt(prev, index), InsertStart(nextIndex), prev[index]);
      && MovesOne(prev, r, index, nextIndex)
      && multiset(r) == multiset(prev)
      && (nextIndex == Some(index) ==> r == prev)
  {
    var x, j := prev[index], InsertStart(nextIndex);
    var rest := RemoveAt(prev, index);
    var r := InsertAt(rest, j, x);
    var k := Landing(|prev|, nextIndex);
    assert k == if j <= |rest| then j else |rest|;
    assert r[k] == x;
    RemoveAtInsertAt(rest, j, x);
    assert multiset(r) == multiset(prev) by {
      assert multiset(r) == multiset(rest) + multiset{x};
      assert multiset(rest) + multiset{x} == multiset(prev);
    }
    if nextIndex == Some(index) {
      InsertAtRemoveAt(prev, index);
    }
  }

  /** Dropping a tab on the last slot of its list moves it to the end and keeps
      the order of the others. */
  lemma MoveToLast<T>(p: seq<T>, i: nat)
    requires i < |p|
    ensures ReorderTabs(p, i, Some(|p| - 1)) == p[..i] + p[i + 1..] + [p[i]]
  {
    var q := p[..i] + p[i + 1..] + [p[i]];
    forall m | 0 <= m < |p| - 1 ensures RemoveAt(q, |p| - 1)[m] == RemoveAt(p, i)[m] {
      assert RemoveAt(q, |p| - 1)[m] == q[m];
    }
    assert MovesOne(p, q, i, Some(|p| - 1));
    MovesOneUnique(p, ReorderTabs(p, i, Some(|p| - 1)), q, i, Some(|p| - 1));
  }


  // ---------------------------------------------------------------------------
  // The drag gesture

  /** `initiateDrag(element)`: select the tab rendered in `element`, provided its
      list has a tab at that slot, and clear the error banner. */
  function Armed(s: MainState, element: Slot, width: int): (r: MainState)
    ensures var list := if element.isPinned then s.pinned else s.unpinned;
      && (element.index >= |list| ==> r == s)
      && (element.index < |list| ==>
          var t := list[element.index];
          && r.selected.Some?
          && r.selected.value.isPinned == element.isPinned
          && r.selected.value.index == element.index
          && r.selected.value.nextIndex == Some(element.index)
          && r.selected.value.canMove
          && r.selected.value.width == width
          && (r.selected.value.id, r.selected.value.title, r.selected.value.icon) == (t.id, t.title, t.icon)
          && r.error.None?
          && r.(selected := s.selected, error := s.error) == s)
  {
    var list := if element.isPinned then s.pinned else s.unpinned;
    if element.index >= |list| then s
    else
      var t := list[element.index];
      s.(error := None,
         selected := Some(SelectedTab(t.id, t.title, t.icon, element.isPinned,
                                      element.index, Some(element.index), width, true)))
  }

  /** `start`: a press on a tab container schedules `initiateDrag` after the current delay. */
  function Pressed(s: MainState, element: Option<Slot>): (r: MainState)
    ensures element.None? ==> r == s
    ensures element.Some? ==> r == s.(timer := Some(Timer(element.value, s.delay)))
  {
    match element
    case None => s
    case Some(e) => s.(timer := Some(Timer(e, s.delay)))
  }

  /** The pending timer fires: arm a drag on the element it was scheduled for.
      `width` is that element's rendered width at this moment. */
  function TimerFires(s: MainState, width: int): (r: MainState)
    ensures s.timer.None? ==> r == s
    ensures r.timer.None?
    ensures s.timer.Some? ==> r == Armed(s.(timer := None), s.timer.value.element, width)
  {
    match s.timer
    case None => s
    case Some(t) => Armed(s.(timer := None), t.element, width)
  }

  /** The window `mousemove` listener: the drag ghost is live exactly while a tab is selected. */
  function Moved(s: MainState): (r: MainState)
    ensures r.beingDragged <==> s.selected.Some?
    ensures r.(beingDragged := s.beingDragged) == s
  {
    s.(beingDragged := s.selected.Some?)
  }

  /** `handleMove`: hovering a slot of the selection's own list makes it the drop
      target; hovering a slot of the other list forbids the drop and keeps the
      previous target. */
  function Hovered(s: MainState, element: Option<Slot>): (r: MainState)
    ensures s.selected.None? || element.None? ==> r == s
    ensures s.selected.Some? && element.Some? ==>
      var sel, e := s.selected.value, element.value;
      && r.selected.Some?
      && (e.isPinned == sel.isPinned ==>
            r.selected.value == sel.(nextIndex := Some(e.index), canMove := true))
      && (e.isPinned != sel.isPinned ==>
            r.selected.value == sel.(canMove := false))
    ensures r.(selected := s.selected) == s
  {
    match (s.selected, element)
    case (Some(sel), Some(e)) =>
      if e.isPinned == sel.isPinned
      then s.(selected := Some(sel.(nextIndex := Some(e.index), canMove := true)))
      else s.(selected := Some(sel.(canMove := false)))
    case _ => s
  }

  /** `reset`: drop the selection and hide the ghost. */
  function Cleared(s: MainState): (r: MainState)
    ensures r.selected.None? && !r.beingDragged
    ensures r.(selected := s.selected, beingDragged := s.beingDragged) == s
  {
    s.(selected := None, beingDragged := false)
  }

  /** `end`: release over a tab. The selection, ghost and timer are always cleared.
      Without a live drag nothing else happens; a forbidden drop raises the banner
      for the source list and keeps both lists; an allowed drop reorders the
      source list only. */
  function Released(s: MainState): (r: MainState)
    ensures r.selected.None? && !r.beingDragged && r.timer.None? && r.delay == s.delay
    ensures s.selected.None? || !s.beingDragged ==>
      r.pinned == s.pinned && r.unpinned == s.unpinned && r.error == s.error
    ensures s.selected.Some? && s.beingDragged && !s.selected.value.canMove ==>
      && r.pinned == s.pinned && r.unpinned == s.unpinned
      && r.error == Some(ErrorMessage(s.selected.value.isPinned))
    ensures s.selected.Some? && s.beingDragged && s.selected.value.canMove ==>
      var sel := s.selected.value;
      && r.error == s.error
      && (sel.isPinned ==>
            && MovesOne(s.pinned, r.pinned, sel.index, sel.nextIndex)
            && multiset(r.pinned) == multiset(s.pinned) && r.unpinned == s.unpinned)
      && (!sel.isPinned ==>
            && MovesOne(s.unpinned, r.unpinned, sel.index, sel.nextIndex)
            && multiset(r.unpinned) == multiset(s.unpinned) && r.pinned == s.pinned)
  {
    var cleared := Cleared(s).(timer := None);
    match s.selected
    case None => cleared
    case Some(sel) =>
      if !s.beingDragged then cleared
      else if !sel.canMove then cleared.(error := Some(ErrorMessage(sel.isPinned)))
      else if sel.isPinned then cleared.(pinned := ReorderTabs(s.pinned, sel.index, sel.nextIndex))
      else cleared.(unpinned := ReorderTabs(s.unpinned, sel.index, sel.nextIndex))
  }

  /** `clearError`: the banner's close button, or its 5000 ms timeout expiring. */
  function ErrorCleared(s: MainState): (r: MainState)
    ensures r.error.None? && r.(error := s.error) == s
  {
    s.(error := None)
  }

  /** The window `resize` listener. */
  function Resized(s: MainState, width: int, height: int): (r: MainState)
    ensures r.delay == ActivationDelay(width, height) && r.(delay := s.delay) == s
  {
    s.(delay := ActivationDelay(width, height))
  }

  // ---------------------------------------------------------------------------
  // Event sequences

  /** Everything that can happen to the component. */
  datatype Event =
    | PinClick(index: nat)
    | UnpinClick(index: nat)
    | Press(element: Option<Slot>)
    | TimeoutElapsed(width: int)
    | Hover(element: Option<Slot>)
    | MouseMove
    | Release
    | ReleaseOutside
    | DismissError
    | WindowResize(width: int, height: int)

  /** The events that can change the lists. */
  predicate ChangesLists(e: Event) {
    e.PinClick? || e.UnpinClick? || e.Release?
  }

  /** Dispatch an event to its handler. Only pin and unpin clicks and a release
      touch the lists; only a resize touches the delay. */
  function Step(s: MainState, e: Event): (r: MainState)
    ensures !ChangesLists(e) ==> r.pinned == s.pinned && r.unpinned == s.unpinned
    ensures !e.WindowResize? ==> r.delay == s.delay
  {
    match e
    case PinClick(i) => AddToPinned(s, i)
    case UnpinClick(i) => RemoveFromPinned(s, i)
    case Press(el) => Pressed(s, el)
    case TimeoutElapsed(w) => TimerFires(s, w)
    case Hover(el) => Hovered(s, el)
    case MouseMove => Moved(s)
    case Release => Released(s)
    case ReleaseOutside => Cleared(s)
    case DismissError => ErrorCleared(s)
    case WindowResize(w, h) => Resized(s, w, h)
  }

  /** Handle the events in order. */
  function Run(s: MainState, events: seq<Event>): (r: MainState)
    ensures (forall i :: 0 <= i < |events| ==> !ChangesLists(events[i])) ==>
      r.pinned == s.pinned && r.unpinned == s.unpinned
    ensures (forall i :: 0 <= i < |events| ==> !events[i].WindowResize?) ==> r.delay == s.delay
    decreases |events|
  {
    if events == [] then s else Run(Step(s, events[0]), events[1..])
  }

  /** The first event is handled first. */
  lemma RunCons(s: MainState, e: Event, rest: seq<Event>)
    ensures Run(s, [e] + rest) == Run(Step(s, e), rest)
  {
    var events := [e] + rest;
    assert events[0] == e && events[1..] == rest;
  }

  // ---------------------------------------------------------------------------
  // The invariant: every catalog tab sits in exactly one list, once, and the
  // pinned list is never empty.

  /** The two lists together hold exactly the tabs of `catalog`, the pinned list
      is not empty and the delay is one of the two the resize rule picks. */
  predicate SplitsCatalog(s: MainState, catalog: seq<Tab>) {
    && multiset(s.pinned + s.unpinned) == multiset(catalog)
    && |s.pinned| >= 1
    && (s.delay == 0 || s.delay == LongPressDelay)
  }

  predicate Inv(s: MainState) {
    SplitsCatalog(s, Tabs)
  }

  lemma InitialInv()
    ensures Inv(Initial())
    ensures |Initial().pinned| == PinnedByDefault
  {
    InitialSplit();
  }

  /** A drop reorders one list within itself, so the split survives `end`. */
  lemma ReleasedKeepsSplit(s: MainState, catalog: seq<Tab>)
    requires SplitsCatalog(s, catalog)
    ensures SplitsCatalog(Released(s), catalog)
  {
    var r := Released(s);
    assert multiset(r.pinned) == multiset(s.pinned) && multiset(r.unpinned) == multiset(s.unpinned);
    assert |r.pinned| == |s.pinned|;
    assert multiset(r.pinned + r.unpinned) == multiset(r.pinned) + multiset(r.unpinned);
    assert multiset(s.pinned + s.unpinned) == multiset(s.pinned) + multiset(s.unpinned);
  }

  lemma StepKeepsSplit(s: MainState, e: Event, catalog: seq<Tab>)
    requires SplitsCatalog(s, catalog)
    ensures SplitsCatalog(Step(s, e), catalog)
  {
    match e
    case PinClick(i) =>
      var r := AddToPinned(s, i);
      assert r.delay == s.delay;
    case UnpinClick(i) =>
      var r := RemoveFromPinned(s, i);
      assert r.delay == s.delay;
    case Press(el) =>
      var r := Pressed(s, el);
      assert r.pinned == s.pinned && r.unpinned == s.unpinned && r.delay == s.delay;
    case TimeoutElapsed(w) =>
      var r := TimerFires(s, w);
      assert r.pinned == s.pinned && r.unpinned == s.unpinned && r.delay == s.delay;
    case Hover(el) =>
      var r := Hovered(s, el);
      assert r.pinned == s.pinned && r.unpinned == s.unpinned && r.delay == s.delay;
    case MouseMove =>
      var r := Moved(s);
      assert r.pinned == s.pinned && r.unpinned == s.unpinned && r.delay == s.delay;
    case Release => ReleasedKeepsSplit(s, catalog);
    case ReleaseOutside =>
      var r := Cleared(s);
      assert r.pinned == s.pinned && r.unpinned == s.unpinned && r.delay == s.delay;
    case DismissError =>
      var r := ErrorCleared(s);
      assert r.pinned == s.pinned && r.unpinned == s.unpinned && r.delay == s.delay;
    case WindowResize(w, h) =>
      var r := Resized(s, w, h);
      assert r.pinned == s.pinned && r.unpinned == s.unpinned;
  }

  /** Every sequence of events from a valid state keeps the invariant. */
  lemma {:induction false} RunKeepsSplit(s: MainState, events: seq<Event>, catalog: seq<Tab>)
    requires SplitsCatalog(s, catalog)
    ensures SplitsCatalog(Run(s, events), catalog)
    decreases |events|
  {
    if events != [] {
      StepKeepsSplit(s, events[0], catalog);
      RunKeepsSplit(Step(s, events[0]), events[1..], catalog);
    }
  }

  /** Two lists whose joint contents are those of a repeat-free catalog split it:
      each catalog entry is in exactly one of them, once. */
  lemma SplitOfDistinct<T>(p: seq<T>, u: seq<T>, catalog: seq<T>)
    requires IsDistinct(catalog) && multiset(p + u) == multiset(catalog)
    ensures forall t :: t in catalog ==> (t in p <==> t !in u)
    ensures forall t :: t in p || t in u ==> t in catalog
    ensures IsDistinct(p) && IsDistinct(u)
  {
    assert multiset(p + u) == multiset(p) + multiset(u);
    forall x ensures multiset(catalog)[x] == if x in catalog then 1 else 0 {
      DistinctCountsOnce(catalog, x);
    }
    forall x ensures multiset(p)[x] <= 1 && multiset(u)[x] <= 1 {
      assert multiset(p + u)[x] == multiset(p)[x] + multiset(u)[x];
    }
    CountsOnceDistinct(p);
    CountsOnceDistinct(u);
    forall t | t in p || t in u ensures t in catalog {
      assert t in multiset(p + u);
    }
  }

  /** Every state the component can reach from mounting keeps the partition. */
  lemma ReachableKeepsPartition(events: seq<Event>)
    ensures var s := Run(Initial(), events);
      && Inv(s)
      && (forall t :: t in Tabs ==> (t in s.pinned <==> t !in s.unpinned))
      && (forall t :: t in s.pinned || t in s.unpinned ==> t in Tabs)
      && IsDistinct(s.pinned) && IsDistinct(s.unpinned)
  {
    InitialInv();
    RunKeepsSplit(Initial(), events, Tabs);
    var s := Run(Initial(), events);
    CatalogDistinct();
    SplitOfDistinct(s.pinned, s.unpinned, Tabs);
  }

  // ---------------------------------------------------------------------------
  // Gestures

  /** A press released over a tab before the timer fires never selects a tab and
      never moves one: `end` cancels the timer. */
  lemma TapNeverDrags(s: MainState, element: Slot, width: int)
    requires s.selected.None?
    ensures var r := Run(s, [Press(Some(element)), Release, TimeoutElapsed(width)]);
      && r.selected.None? && r.timer.None?
      && r.pinned == s.pinned && r.unpinned == s.unpinned && r.error == s.error
  {
    var s1 := Pressed(s, Some(element));
    var s2 := Released(s1);
    assert Run(s, [Press(Some(element)), Release, TimeoutElapsed(width)])
        == Run(s2, [TimeoutElapsed(width)]);
    assert Run(s2, [TimeoutElapsed(width)]) == TimerFires(s2, width);
  }

  /** A press released outside every tab still starts a drag: `reset` leaves the
      timer pending, so it later arms the pressed tab and the next pointer move
      makes the drag live, with no button held. */
  lemma ReleaseOutsideStillDrags(s: MainState, element: Slot, width: int)
    requires element.index < |if element.isPinned then s.pinned else s.unpinned|
    ensures var r := Run(s, [Press(Some(element)), ReleaseOutside, TimeoutElapsed(width), MouseMove]);
      var list := if element.isPinned then s.pinned else s.unpinned;
      && r.selected.Some? && r.beingDragged && r.timer.None?
      && r.selected.value.index == element.index
      && r.selected.value.isPinned == element.isPinned
      && r.selected.value.title == list[element.index].title
      && r.pinned == s.pinned && r.unpinned == s.unpinned
  {
    var events := [Press(Some(element)), ReleaseOutside, TimeoutElapsed(width), MouseMove];
    var s1 := Pressed(s, Some(element));
    var s2 := Cleared(s1);
    var s3 := TimerFires(s2, width);
    assert Run(s, events) == Run(s1, events[1..]);
    assert Run(s1, events[1..]) == Run(s2, events[2..]);
    assert Run(s2, events[2..]) == Run(s3, events[3..]);
    assert Run(s3, events[3..]) == Moved(s3);
  }

  /** A press held until the timer fires selects the pressed tab, if its list has one at that slot. */
  lemma LongPressArms(s: MainState, element: Slot, width: int)
    ensures var r := Run(s, [Press(Some(element)), TimeoutElapsed(width)]);
      var list := if element.isPinned then s.pinned else s.unpinned;
      && r.pinned == s.pinned && r.unpinned == s.unpinned
      && (r.selected.Some? <==> element.index < |list| || s.selected.Some?)
      && (element.index < |list| ==>
            r.selected.Some? && r.selected.value.index == element.index
            && r.selected.value.isPinned == element.isPinned
            && r.selected.value.title == list[element.index].title)
  {
    var s1 := Pressed(s, Some(element));
    assert Run(s, [Press(Some(element)), TimeoutElapsed(width)]) == Run(s1, [TimeoutElapsed(width)]);
    assert Run(s1, [TimeoutElapsed(width)]) == TimerFires(s1, width);
  }

  /** The gesture of a drag from the slot `from` onto the slot `to`: press, hold,
      move, hover, release. */
  function DragOnto(from: Slot, width: int, to: Slot): seq<Event> {
    [Press(Some(from)), TimeoutElapsed(width), MouseMove, Hover(Some(to)), Release]
  }

  /** The state once the pressed tab is picked up and the pointer has moved. */
  function PickedUp(s: MainState, from: Slot, width: int): MainState {
    Moved(TimerFires(Pressed(s, Some(from)), width))
  }

  lemma DragOntoSteps(s: MainState, from: Slot, width: int, to: Slot)
    ensures Run(s, DragOnto(from, width, to)) == Released(Hovered(PickedUp(s, from, width), Some(to)))
  {
    var s1 := Pressed(s, Some(from));
    var s2 := TimerFires(s1, width);
    var s3 := Moved(s2);
    var s4 := Hovered(s3, Some(to));
    var events := DragOnto(from, width, to);
    assert Run(s, events) == Run(s1, events[1..]);
    assert Run(s1, events[1..]) == Run(s2, events[2..]);
    assert Run(s2, events[2..]) == Run(s3, events[3..]);
    assert Run(s3, events[3..]) == Run(s4, events[4..]);
    assert Run(s4, events[4..]) == Released(s4);
  }

  /** Picking up a tab that exists selects it, live, movable, with its own slot as target. */
  lemma PickUpSelects(s: MainState, from: Slot, width: int)
    requires from.index < |if from.isPinned then s.pinned else s.unpinned|
    ensures var r := PickedUp(s, from, width);
      && r.pinned == s.pinned && r.unpinned == s.unpinned
      && r.selected.Some? && r.beingDragged
      && r.selected.value.isPinned == from.isPinned && r.selected.value.index == from.index
      && r.selected.value.canMove && r.error.None?
  {
  }

  /** Dropping a tab on a slot of the other list leaves both lists as they were and
      raises the banner for the source list. */
  lemma CrossListDropRejected(s: MainState, from: Slot, width: int, to: Slot)
    requires from.index < |if from.isPinned then s.pinned else s.unpinned|
    requires to.isPinned != from.isPinned
    ensures var r := Run(s, DragOnto(from, width, to));
      && r.pinned == s.pinned && r.unpinned == s.unpinned
      && r.error == Some(ErrorMessage(from.isPinned))
      && r.selected.None? && !r.beingDragged
  {
    DragOntoSteps(s, from, width, to);
    PickUpSelects(s, from, width);
  }

  /** Dropping a tab on a slot of its own list moves it there and leaves the other list alone. */
  lemma SameListDropReorders(s: MainState, from: Slot, width: int, to: Slot)
    requires from.index < |if from.isPinned then s.pinned else s.unpinned|
    requires to.isPinned == from.isPinned
    ensures var r := Run(s, DragOnto(from, width, to));
      && (from.isPinned ==>
            r.pinned == ReorderTabs(s.pinned, from.index, Some(to.index)) && r.unpinned == s.unpinned)
      && (!from.isPinned ==>
            r.unpinned == ReorderTabs(s.unpinned, from.index, Some(to.index)) && r.pinned == s.pinned)
      && r.error.None? && r.selected.None?
  {
    DragOntoSteps(s, from, width, to);
    PickUpSelects(s, from, width);
    var s3 := PickedUp(s, from, width);
    var s4 := Hovered(s3, Some(to));
    assert s4.selected.value.index == from.index;
    assert s4.selected.value.nextIndex == Some(to.index) && s4.selected.value.canMove;
  }

  /** Dropping a pinned tab on the last pinned slot moves it to the end of the
      pinned list, keeps the order of the others and leaves the unpinned list alone. */
  lemma DropOnLastSlot(s: MainState, i: nat, width: int)
    requires i < |s.pinned|
    ensures var r := Run(s, DragOnto(Slot(i, true), width, Slot(|s.pinned| - 1, true)));
      r.pinned == s.pinned[..i] + s.pinned[i + 1..] + [s.pinned[i]] && r.unpinned == s.unpinned
  {
    SameListDropReorders(s, Slot(i, true), width, Slot(|s.pinned| - 1, true));
    MoveToLast(s.pinned, i);
  }

  /** `n` clicks on the unpin button of the first pinned tab. */
  function UnpinFirst(n: nat): (events: seq<Event>)
    ensures |events| == n && forall i :: 0 <= i < n ==> events[i] == UnpinClick(0)
  {
    if n == 0 then [] else [UnpinClick(0)] + UnpinFirst(n - 1)
  }

  /** One click on the first pinned tab's unpin button keeps the last pinned tab
      last and shortens the pinned list by one unless it is already the only one. */
  lemma UnpinFirstOnce(s: MainState)
    requires |s.pinned| >= 1
    ensures var s1 := Step(s, UnpinClick(0));
      && |s1.pinned| == (if |s.pinned| > 1 then |s.pinned| - 1 else 1)
      && s1.pinned[|s1.pinned| - 1] == s.pinned[|s.pinned| - 1]
  {
    var s1 := RemoveFromPinned(s, 0);
    if |s.pinned| > 1 {
      var last := |s1.pinned| - 1;
      assert s1.pinned[last] == s.pinned[last + 1];
    }
  }

  /** Unpinning the first tab over and over empties the pinned list down to its
      last tab and no further. */
  lemma {:induction false} UnpinningStopsAtLastTab(s: MainState, n: nat)
    requires |s.pinned| >= 1 && n >= |s.pinned| - 1
    ensures Run(s, UnpinFirst(n)).pinned == [s.pinned[|s.pinned| - 1]]
    decreases n
  {
    if n == 0 {
      assert s.pinned == [s.pinned[0]];
    } else {
      RunCons(s, UnpinClick(0), UnpinFirst(n - 1));
      UnpinFirstOnce(s);
      UnpinningStopsAtLastTab(Step(s, UnpinClick(0)), n - 1);
    }
  }

  /** Unpinning from the initial bar stops at the last pinned tab, "Accounting". */
  lemma LastPinnedTabStays(n: nat)
    requires n >= PinnedByDefault - 1
    ensures Run(Initial(), UnpinFirst(n)).pinned == [Tabs[3]]
  {
    UnpinningStopsAtLastTab(Initial(), n);
  }

  // ---------------------------------------------------------------------------
  // The component

  /** `Main`'s state hooks as fields; each handler updates them in place. */
  class Main {
    /** The registry the lists are drawn from. */
    ghost const catalog: seq<Tab>

    var pinned: seq<Tab>
    var unpinned: seq<Tab>
    var selected: Option<SelectedTab>
    var error: Option<string>
    var delay: int
    var beingDragged: bool
    var timer: Option<Timer>

    function State(): MainState
      reads this
    {
      MainState(pinned, unpinned, selected, error, delay, beingDragged, timer)
    }

    ghost predicate Valid()
      reads this
    {
      SplitsCatalog(State(), catalog)
    }

    constructor ()
      ensures Valid() && State() == Initial() && catalog == Tabs
    {
      catalog := Tabs;
      pinned := Tabs[..PinnedByDefault];
      unpinned := Tabs[PinnedByDefault..];
      selected := None;
      error := None;
      delay := 0;
      beingDragged := false;
      timer := None;
      new;
      InitialInv();
      assert State() == Initial();
    }

    method AddToPinnedTabs(index: nat)
      requires Valid()
      modifies this
      ensures Valid() && State() == AddToPinned(old(State()), index)
    {
      ghost var before, after := State(), AddToPinned(State(), index);
      var newUnpinned := Splice(unpinned, index, 1, []);
      SpliceOne(unpinned, index);
      if |newUnpinned.removed| < 1 {
        return;
      }
      assert after == before.(pinned := pinned + newUnpinned.removed, unpinned := newUnpinned.rest);
      assert SplitsCatalog(after, catalog);
      pinned := pinned + newUnpinned.removed;
      unpinned := newUnpinned.rest;
      assert State() == after;
    }

    method RemoveFromPinnedTabs(index: nat)
      requires Valid()
      modifies this
      ensures Valid() && State() == RemoveFromPinned(old(State()), index)
    {
      ghost var before, after := State(), RemoveFromPinned(State(), index);
      var newPinned := Splice(pinned, index, 1, []);
      SpliceOne(pinned, index);
      if |newPinned.removed| < 1 || |pinned| <= 1 {
        return;
      }
      assert after == before.(pinned := newPinned.rest, unpinned := unpinned + newPinned.removed);
      assert SplitsCatalog(after, catalog);
      unpinned := unpinned + newPinned.removed;
      pinned := newPinned.rest;
      assert State() == after;
    }

    method InitiateDrag(element: Slot, width: int)
      requires Valid()
      modifies this
      ensures Valid() && State() == Armed(old(State()), element, width)
    {
      var list := if element.isPinned then pinned else unpinned;
      if element.index >= |list| {
        return;
      }
      var tab := list[element.index];
      ClearError();
      selected := Some(SelectedTab(tab.id, tab.title, tab.icon, element.isPinned,
                                   element.index, Some(element.index), width, true));
    }

    method Start(element: Option<Slot>)
      requires Valid()
      modifies this
      ensures Valid() && State() == Pressed(old(State()), element)
    {
      if element.None? {
        return;
      }
      timer := Some(Timer(element.value, delay));
    }

    method TimerElapsed(width: int)
      requires Valid()
      modifies this
      ensures Valid() && State() == TimerFires(old(State()), width)
    {
      if timer.None? {
        return;
      }
      var element := timer.value.element;
      timer := None;
      InitiateDrag(element, width);
    }

    method PointerMoved()
      requires Valid()
      modifies this
      ensures Valid() && State() == Moved(old(State()))
    {
      beingDragged := selected.Some?;
    }

    method HandleMove(element: Option<Slot>)
      requires Valid()
      modifies this
      ensures Valid() && State() == Hovered(old(State()), element)
    {
      if selected.None? || element.None? {
        return;
      }
      var hovered := element.value;
      if hovered.isPinned == selected.value.isPinned {
        selected := Some(selected.value.(nextIndex := Some(hovered.index), canMove := true));
      } else {
        selected := Some(selected.value.(canMove := false));
      }
    }

    method End()
      requires Valid()
      modifies this
      ensures Valid() && State() == Released(old(State()))
    {
      ghost var before := State();
      ReleasedKeepsSplit(before, catalog);
      var sel, dragged := selected, beingDragged;
      Reset();
      timer := None;
      assert State() == Cleared(before).(timer := None);
      if sel.None? || !dragged {
        assert State() == Released(before);
        return;
      }
      var tab := sel.value;
      if !tab.canMove {
        error := Some(ErrorMessage(tab.isPinned));
      } else if tab.isPinned {
        pinned := ReorderTabs(pinned, tab.index, tab.nextIndex);
      } else {
        unpinned := ReorderTabs(unpinned, tab.index, tab.nextIndex);
      }
      assert State() == Released(before);
    }

    method Reset()
      requires Valid()
      modifies this
      ensures Valid() && State() == Cleared(old(State()))
    {
      beingDragged := false;
      selected := None;
    }

    method ClearError()
      requires Valid()
      modifies this
      ensures Valid() && State() == ErrorCleared(old(State()))
    {
      error := None;
    }

    method Resize(width: int, height: int)
      requires Valid()
      modifies this
      ensures Valid() && State() == Resized(old(State()), width, height)
    {
      delay := ActivationDelay(width, height);
    }
  }
}

=== FILE: catalog.dfy ===
/**
 * The tab catalog and the selected-tab record of `src/constantsAndTypes.ts`:
 * the fixed registry every tab list of the bar is drawn from.
 */
module Catalog {
  import opened Wrappers
  import opened Distinct

  /** The icon component of a tab, kept as an opaque name. */
  datatype Icon =
    | IoGridOutline | PiBank | LuPhoneCall | GoPersonAdd | BsShopWindow | TfiPieChart
    | AiOutlineMail | GoGear | IoBookOutline | IoCubeOutline | IoListOutline
    | PiShoppingCart | BsWindow

  /** One catalog entry. `isPinned` is the default placement, never updated. */
  datatype Tab = Tab(id: nat, title: string, icon: Icon, isPinned: bool)

  /** The tab being dragged: the catalog entry, the list it came from, the slot it
      was taken from, the slot it would land in, the ghost's width and whether
      dropping now is allowed. `nextIndex` is optional in the record type. */
  datatype SelectedTab = SelectedTab(
    id: nat, title: string, icon: Icon, isPinned: bool,
    index: nat, nextIndex: Option<nat>, width: int, canMove: bool)

  const Tabs: seq<Tab> := [
    Tab(1, "Dashboard", IoGridOutline, true),
    Tab(2, "Banking", PiBank, true),
    Tab(3, "Telefonie", LuPhoneCall, true),
    Tab(4, "Accounting", GoPersonAdd, true),
    Tab(5, "Verkauf", BsShopWindow, false),
    Tab(6, "Statistik", TfiPieChart, false),
    Tab(7, "Post Office", AiOutlineMail, false),
    Tab(8, "Administration", GoGear, false),
    Tab(9, "Help", IoBookOutline, false),
    Tab(10, "Warenbestand", IoCubeOutline, false),
    Tab(11, "Auswallisten", IoListOutline, false),
    Tab(12, "Einkauf", PiShoppingCart, false),
    Tab(13, "Rechn", BsWindow, false)
  ]

  /** Number of entries pinned by default. */
  const PinnedByDefault: nat := 4

  /** Every index of the catalog is one of its thirteen positions. */
  lemma Positions(i: int)
    requires 0 <= i < |Tabs|
    ensures i == 0 || i == 1 || i == 2 || i == 3 || i == 4 || i == 5 || i == 6
         || i == 7 || i == 8 || i == 9 || i == 10 || i == 11 || i == 12
  {
  }

  /** The catalog has 13 entries numbered 1..13 in order, so ids are distinct. */
  lemma CatalogIds()
    ensures |Tabs| == 13
    ensures forall i :: 0 <= i < |Tabs| ==> Tabs[i].id == i + 1
    ensures forall i, j :: 0 <= i < j < |Tabs| ==> Tabs[i].id < Tabs[j].id
  {
    forall i | 0 <= i < |Tabs| ensures Tabs[i].id == i + 1 {
      Positions(i);
    }
  }

  /** Exactly the entries with ids 1..4, the first four, are pinned by default. */
  lemma CatalogPinFlags()
    ensures forall i :: 0 <= i < |Tabs| ==> (Tabs[i].isPinned <==> Tabs[i].id <= 4)
    ensures forall i :: 0 <= i < |Tabs| ==> (Tabs[i].isPinned <==> i < PinnedByDefault)
  {
    forall i | 0 <= i < |Tabs|
      ensures (Tabs[i].isPinned <==> Tabs[i].id <= 4) && (Tabs[i].isPinned <==> i < PinnedByDefault)
    {
      Positions(i);
    }
  }

  /** Titles are non-empty and pairwise distinct. */
  lemma CatalogTitles()
    ensures forall i :: 0 <= i < |Tabs| ==> |Tabs[i].title| > 0
    ensures forall i, j :: 0 <= i < j < |Tabs| ==> Tabs[i].title != Tabs[j].title
  {
    forall i | 0 <= i < |Tabs| ensures |Tabs[i].title| > 0 {
      Positions(i);
    }
    forall i, j | 0 <= i < j < |Tabs| ensures Tabs[i].title != Tabs[j].title {
      Positions(i);
      Positions(j);
    }
  }

  /** No entry occurs twice. */
  lemma CatalogDistinct()
    ensures IsDistinct(Tabs)
  {
    CatalogIds();
  }

  /** The default split: the first four entries pinned, the rest unpinned. */
  lemma InitialSplit()
    ensures forall t :: t in Tabs[..PinnedByDefault] ==> t.isPinned
    ensures forall t :: t in Tabs[PinnedByDefault..] ==> !t.isPinned
    ensures Tabs[..PinnedByDefault] + Tabs[PinnedByDefault..] == Tabs
  {
    CatalogPinFlags();
    forall t | t in Tabs[..PinnedByDefault] ensures t.isPinned {
      var i :| 0 <= i < PinnedByDefault && Tabs[..PinnedByDefault][i] == t;
    }
    forall t | t in Tabs[PinnedByDefault..] ensures !t.isPinned {
      var i :| 0 <= i < |Tabs| - PinnedByDefault && Tabs[PinnedByDefault..][i] == t;
      assert Tabs[PinnedByDefault + i] == t;
    }
  }
}

=== FILE: distinct.dfy ===
/** Facts linking "no element occurs twice" to multiset counts. */
module Distinct {

  predicate IsDistinct<T(==)>(s: seq<T>) {
    forall i, j :: 0 <= i < j < |s| ==> s[i] != s[j]
  }

  /** In a sequence without repeats every element is counted once. */
  lemma {:induction false} DistinctCountsOnce<T>(s: seq<T>, x: T)
    requires IsDistinct(s)
    ensures multiset(s)[x] == if x in s then 1 else 0
  {
    if s != [] {
      assert s == [s[0]] + s[1..];
      assert IsDistinct(s[1..]) by {
        forall i, j | 0 <= i < j < |s[1..]| ensures s[1..][i] != s[1..][j] {
          assert s[1..][i] == s[i + 1] && s[1..][j] == s[j + 1];
        }
      }
      DistinctCountsOnce(s[1..], x);
      assert s[0] !in s[1..] by {
        forall k | 0 <= k < |s[1..]| ensures s[1..][k] != s[0] {
          assert s[1..][k] == s[k + 1];
        }
      }
      assert x in s <==> x == s[0] || x in s[1..];
    }
  }

  /** An element found at two different positions is counted at least twice. */
  lemma RepeatCountsTwice<T>(s: seq<T>, i: nat, j: nat)
    requires i < j < |s| && s[i] == s[j]
    ensures multiset(s)[s[i]] >= 2
  {
    assert s == s[..j] + [s[j]] + s[j + 1..];
    assert s[..j][i] == s[i];
    assert multiset(s) == multiset(s[..j]) + multiset{s[j]} + multiset(s[j + 1..]);
  }

  /** A sequence whose counts are all at most one has no repeats. */
  lemma CountsOnceDistinct<T>(s: seq<T>)
    requires forall x :: multiset(s)[x] <= 1
    ensures IsDistinct(s)
  {
    forall i, j | 0 <= i < j < |s| ensures s[i] != s[j] {
      if s[i] == s[j] {
        RepeatCountsTwice(s, i, j);
      }
    }
  }
}

=== FILE: splice.dfy ===
/**
 * The slice of `Array.prototype.splice` that the tab bar relies on, on sequences:
 * `a.splice(start, deleteCount, ...items)` removes up to `deleteCount` elements
 * starting at the clamped `start`, inserts `items` there, and returns the removed
 * elements. The array after the call and the returned array are the two halves
 * of the result.
 */
module ArraySplice {

  /** The position `splice` actually starts at: negative starts count from the
      end (not below 0), starts past the end are moved to the end. */
  function StartOf(len: nat, start: int): (k: nat)
    ensures k <= len
    ensures 0 <= start <= len ==> k == start
    ensures start > len ==> k == len
    ensures start < 0 ==> k == if len + start < 0 then 0 else len + start
  {
    if start < 0 then (if len + start < 0 then 0 else len + start)
    else if start > len then len
    else start
  }

  /** The result of one call: the array as left behind, and the removed elements. */
  datatype Spliced<T> = Spliced(rest: seq<T>, removed: seq<T>)

  function Splice<T>(s: seq<T>, start: int, deleteCount: nat, items: seq<T>): (r: Spliced<T>)
    ensures var k := StartOf(|s|, start);
            var d := if deleteCount <= |s| - k then deleteCount else |s| - k;
            && r.removed == s[k..k + d]
            && |r.rest| == |s| - d + |items|
            && r.rest[..k] == s[..k]
            && r.rest[k..k + |items|] == items
            && r.rest[k + |items|..] == s[k + d..]
    ensures multiset(r.rest) + multiset(r.removed) == multiset(s) + multiset(items)
  {
    var k := StartOf(|s|, start);
    var d := if deleteCount <= |s| - k then deleteCount else |s| - k;
    var r := Spliced(s[..k] + items + s[k + d..], s[k..k + d]);
    assert s == s[..k] + s[k..k + d] + s[k + d..];
    assert r.rest[..k] == s[..k];
    assert r.rest[k..k + |items|] == items;
    assert r.rest[k + |items|..] == s[k + d..];
    r
  }

  /** Removing one element (`splice(i, 1)` for an index inside the array). */
  function RemoveAt<T>(s: seq<T>, i: nat): (r: seq<T>)
    requires i < |s|
    ensures |r| == |s| - 1
    ensures forall k :: 0 <= k < i ==> r[k] == s[k]
    ensures forall k :: i <= k < |r| ==> r[k] == s[k + 1]
    ensures multiset(r) + multiset{s[i]} == multiset(s)
  {
    var r := Splice(s, i, 1, []);
    assert r.removed == [s[i]];
    r.rest
  }

  /** Inserting one element (`splice(j, 0, x)`), past-the-end positions append. */
  function InsertAt<T>(s: seq<T>, j: nat, x: T): (r: seq<T>)
    ensures |r| == |s| + 1
    ensures var k := if j <= |s| then j else |s|;
            && r[k] == x
            && (forall m :: 0 <= m < k ==> r[m] == s[m])
            && (forall m :: k < m < |r| ==> r[m] == s[m - 1])
    ensures multiset(r) == multiset(s) + multiset{x}
  {
    var r := Splice(s, j, 0, [x]);
    var k := StartOf(|s|, j);
    assert r.rest == s[..k] + [x] + s[k..] by {
      assert r.rest[..k] + r.rest[k..k + 1] + r.rest[k + 1..] == r.rest;
    }
    r.rest
  }

  /** `splice(i, 1)` with no items: inside the array it is `RemoveAt` and returns
      the one element; past the end it removes nothing and leaves the array. */
  lemma SpliceOne<T>(s: seq<T>, i: nat)
    ensures i < |s| ==> Splice(s, i, 1, []) == Spliced(RemoveAt(s, i), [s[i]])
    ensures i >= |s| ==> Splice(s, i, 1, []) == Spliced(s, [])
  {
    var r := Splice(s, i, 1, []);
    if i < |s| {
      assert r.removed == [s[i]];
    } else {
      assert r.rest == s[..|s|];
    }
  }

  /** Two sequences that agree at `k` and agree once `k` is removed are equal. */
  lemma RemoveAtInjective<T>(a: seq<T>, b: seq<T>, k: nat)
    requires k < |a| && |a| == |b| && a[k] == b[k]
    requires RemoveAt(a, k) == RemoveAt(b, k)
    ensures a == b
  {
    var r := RemoveAt(a, k);
    forall m | 0 <= m < |a| ensures a[m] == b[m] {
      if m < k {
        assert a[m] == r[m] == b[m];
      } else if m > k {
        assert a[m] == r[m - 1] == b[m];
      }
    }
  }

  /** Removing at `i` and inserting at the same place gives the sequence back. */
  lemma InsertAtRemoveAt<T>(s: seq<T>, i: nat)
    requires i < |s|
    ensures InsertAt(RemoveAt(s, i), i, s[i]) == s
  {
    var r := InsertAt(RemoveAt(s, i), i, s[i]);
    assert |r| == |s|;
    forall m | 0 <= m < |s| ensures r[m] == s[m] {
    }
  }

  /** Inserting at `j` and removing the inserted element again gives the sequence back. */
  lemma RemoveAtInsertAt<T>(s: seq<T>, j: nat, x: T)
    ensures var k := if j <= |s| then j else |s|;
            RemoveAt(InsertAt(s, j, x), k) == s
  {
    var k := if j <= |s| then j else |s|;
    var r := RemoveAt(InsertAt(s, j, x), k);
    assert |r| == |s|;
    forall m | 0 <= m < |s| ensures r[m] == s[m] {
    }
  }
}

=== FILE: tab_view.dfy ===
/**
 * The per-tab derivations of `src/Tab.tsx`: the class names a tab carries while a
 * drag is in progress, whether the tab is the active one for the current route,
 * and which callback each of its two buttons invokes. Everything here is computed
 * from the component's props; nothing is stored.
 */
module TabView {
  import opened Wrappers
  import Catalog

  /** The `tab` prop. */
  datatype TabProp = TabProp(title: string, icon: Catalog.Icon, isPinned: bool)

  /** What the component reads from its `selectedTab` prop: the dragged tab's slot
      and list, the title of the tab under the pointer and whether the drag is live. */
  datatype DragView = DragView(index: int, isPinned: bool, nextTitle: string, isBeingDragged: bool)

  // ---------------------------------------------------------------------------
  // Class names

  /** The tokens of the `className` template literal, in order. An interpolated
      `false` from a failed `&&` shows up as the token "false"; an empty string
      adds no token. */
  function ClassTokens(selected: Option<DragView>, tab: TabProp, index: int): (r: seq<string>)
    ensures "next-tab" in r <==>
      selected.Some? && selected.value.nextTitle == tab.title && selected.value.isBeingDragged
      && selected.value.isPinned == tab.isPinned
    ensures "forbidden" in r <==>
      selected.Some? && selected.value.nextTitle == tab.title && selected.value.isBeingDragged
      && selected.value.isPinned != tab.isPinned
    ensures "dragging" in r <==>
      selected.Some? && index == selected.value.index && selected.value.isBeingDragged
      && tab.isPinned == selected.value.isPinned
    ensures "pinned" in r <==> tab.isPinned
    ensures !("next-tab" in r && "forbidden" in r)
    ensures "tab-container" in r && "relative" in r
  {
    var pinned := if tab.isPinned then ["pinned"] else [];
    var target :=
      match selected
      case None => "false"
      case Some(sel) =>
        if sel.nextTitle == tab.title && sel.isBeingDragged then
          (if sel.isPinned == tab.isPinned then "next-tab" else "forbidden")
        else "false";
    var dragging :=
      match selected
      case None => []
      case Some(sel) =>
        if index == sel.index && sel.isBeingDragged && tab.isPinned == sel.isPinned
        then ["dragging"] else [];
    ["tab-container"] + pinned + ["relative", target] + dragging
  }

  // ---------------------------------------------------------------------------
  // Active-route matching

  /** `\w`: ASCII letters, digits and underscore. */
  predicate IsWordChar(c: char) {
    ('a' <= c <= 'z') || ('A' <= c <= 'Z') || ('0' <= c <= '9') || c == '_'
  }

  /** `\d`: ASCII digits. */
  predicate IsDigit(c: char) {
    '0' <= c <= '9'
  }

  /** `\s`: the white-space and line-terminator characters of ECMAScript. */
  predicate IsSpace(c: char) {
    c == '\t' || c == '\n' || c == '\U{B}' || c == '\U{C}' || c == '\r' || c == ' '
    || c == '\U{A0}' || c == '\U{1680}' || ('\U{2000}' <= c <= '\U{200A}')
    || c == '\U{2028}' || c == '\U{2029}' || c == '\U{202F}' || c == '\U{205F}'
    || c == '\U{3000}' || c == '\U{FEFF}'
  }

  /** A character matched by `(\W|\s|\d)`; the `i` flag changes none of the three classes. */
  predicate IsStripped(c: char) {
    !IsWordChar(c) || IsSpace(c) || IsDigit(c)
  }

  /** The characters that survive: ASCII letters and underscore. */
  predicate IsKept(c: char) {
    ('a' <= c <= 'z') || ('A' <= c <= 'Z') || c == '_'
  }

  /** The alternation reduces to "everything except letters and underscore". */
  lemma StrippedIffNotKept(c: char)
    ensures IsStripped(c) <==> !IsKept(c)
    ensures IsSpace(c) ==> !IsWordChar(c)
  {
  }

  /** `s.replace(/(\W|\s|\d)/ig, '')`. */
  function Strip(s: string): (r: string)
    ensures |r| <= |s|
    ensures forall i :: 0 <= i < |r| ==> IsKept(r[i])
    ensures forall i :: 0 <= i < |r| ==> !IsDigit(r[i]) && !IsSpace(r[i]) && IsWordChar(r[i])
    ensures forall i :: 0 <= i < |r| ==> r[i] in s
  {
    if s == [] then []
    else if IsStripped(s[0]) then Strip(s[1..])
    else [s[0]] + Strip(s[1..])
  }

  /** Stripping keeps exactly the kept characters, in order: it distributes over concatenation. */
  lemma {:induction false} StripAppend(a: string, b: string)
    ensures Strip(a + b) == Strip(a) + Strip(b)
  {
    if a == [] {
      assert a + b == b;
    } else {
      assert (a + b)[0] == a[0];
      assert (a + b)[1..] == a[1..] + b;
      StripAppend(a[1..], b);
    }
  }

  /** A string of letters and underscores is left as it is. */
  lemma {:induction false} StripFixesKept(s: string)
    requires forall i :: 0 <= i < |s| ==> IsKept(s[i])
    ensures Strip(s) == s
  {
    if s != [] {
      StripFixesKept(s[1..]);
    }
  }

  /** Stripping twice is stripping once. */
  lemma StripIdempotent(s: string)
    ensures Strip(Strip(s)) == Strip(s)
  {
    StripFixesKept(Strip(s));
  }

  /** Percent-encoding of spaces, as a title appears in a URL path. */
  function EncodeSpaces(s: string): (r: string)
    ensures |r| >= |s|
    ensures ' ' !in r
  {
    if s == [] then []
    else if s[0] == ' ' then "%20" + EncodeSpaces(s[1..])
    else [s[0]] + EncodeSpaces(s[1..])
  }

  /** A string without spaces is its own encoding: only spaces are rewritten. */
  lemma {:induction false} EncodeKeepsSpaceless(s: string)
    requires ' ' !in s
    ensures EncodeSpaces(s) == s
  {
    if s != [] {
      assert ' ' !in s[1..];
      EncodeKeepsSpaceless(s[1..]);
      assert [s[0]] + s[1..] == s;
    }
  }

  /** Spaces and their `%20` encoding strip to the same thing, since `%` and digits are stripped. */
  lemma {:induction false} StripIgnoresEncodedSpaces(s: string)
    ensures Strip(EncodeSpaces(s)) == Strip(s)
  {
    if s != [] {
      StripIgnoresEncodedSpaces(s[1..]);
      if s[0] == ' ' {
        StripAppend("%20", EncodeSpaces(s[1..]));
        assert Strip("%20") == [];
      } else {
        StripAppend([s[0]], EncodeSpaces(s[1..]));
        StripAppend([s[0]], s[1..]);
        assert [s[0]] + s[1..] == s;
      }
    }
  }

  /** `hay.includes(needle)`: case-sensitive containment of a contiguous substring. */
  function Includes(hay: string, needle: string): (r: bool)
    ensures needle <= hay ==> r
    ensures r ==> |needle| <= |hay|
    decreases |hay|
  {
    if needle <= hay then true
    else if hay == [] then false
    else Includes(hay[1..], needle)
  }

  /** `needle` occurs in `hay` starting at position `i`. */
  predicate OccursAt(hay: string, needle: string, i: int) {
    0 <= i && i + |needle| <= |hay| && hay[i..i + |needle|] == needle
  }

  /** `needle` occurs somewhere in `hay`. */
  ghost predicate Occurs(hay: string, needle: string) {
    exists i :: OccursAt(hay, needle, i)
  }

  /** An occurrence at 0 is a prefix. */
  lemma OccursAtStart(hay: string, needle: string)
    ensures OccursAt(hay, needle, 0) <==> needle <= hay
  {
    if needle <= hay {
      assert hay[..|needle|] == needle;
    }
  }

  /** An occurrence one place further in `hay` is an occurrence in its tail. */
  lemma OccursInTail(hay: string, needle: string, i: nat)
    requires hay != []
    ensures OccursAt(hay, needle, i + 1) <==> OccursAt(hay[1..], needle, i)
  {
    if i + 1 + |needle| <= |hay| {
      assert hay[1..][i..i + |needle|] == hay[i + 1..i + 1 + |needle|];
    }
  }

  /** `Includes` finds exactly the positions where `needle` occurs. */
  lemma {:induction false} IncludesIff(hay: string, needle: string)
    ensures Includes(hay, needle) <==> Occurs(hay, needle)
    decreases |hay|
  {
    OccursAtStart(hay, needle);
    if needle <= hay {
    } else if hay == [] {
    } else {
      IncludesIff(hay[1..], needle);
      forall i | OccursAt(hay, needle, i) ensures OccursAt(hay[1..], needle, i - 1) {
        OccursInTail(hay, needle, i - 1);
      }
      forall i | OccursAt(hay[1..], needle, i) ensures OccursAt(hay, needle, i + 1) {
        OccursInTail(hay, needle, i);
      }
    }
  }

  /** The tab is highlighted as active for the current path. */
  function IsActive(pathname: string, title: string): (r: bool)
    ensures r <==> Occurs(Strip(pathname), Strip(title))
  {
    var hay, needle := Strip(pathname), Strip(title);
    IncludesIff(hay, needle);
    Includes(hay, needle)
  }

  /** A tab is active on the path the router builds from its own title, spaces encoded or not. */
  lemma ActiveOnOwnRoute(title: string)
    ensures IsActive("/" + title, title)
    ensures IsActive("/" + EncodeSpaces(title), title)
  {
    StripAppend("/", title);
    StripAppend("/", EncodeSpaces(title));
    StripIgnoresEncodedSpaces(title);
    assert Strip("/") == [];
    assert OccursAt(Strip("/" + title), Strip(title), 0);
    assert OccursAt(Strip("/" + EncodeSpaces(title)), Strip(title), 0);
  }

  /** On a path made of one segment of letters as long as the title, the match is
      plain equality: in particular it is case-sensitive. */
  lemma ActiveOnSameLengthSegment(segment: string, title: string)
    requires forall i :: 0 <= i < |segment| ==> IsKept(segment[i])
    requires forall i :: 0 <= i < |title| ==> IsKept(title[i])
    requires |segment| == |title|
    ensures IsActive("/" + segment, title) <==> segment == title
  {
    StripAppend("/", segment);
    assert Strip("/") == [];
    StripFixesKept(segment);
    StripFixesKept(title);
    if segment == title {
      assert OccursAt(segment, title, 0);
    }
  }

  // ---------------------------------------------------------------------------
  // Click dispatch

  /** The callbacks a tab can invoke. `dontNavigate` left out is `false`. */
  datatype Intent =
    | NavigateToTab(title: string)
    | AddToPinnedTabs(index: int, title: string, dontNavigate: bool)
    | RemoveFromPinnedTabs(index: int, title: string)

  /** The title button: open a pinned tab, pin-and-open an unpinned one. */
  function TitleClick(tab: TabProp, index: int): (r: Intent)
    ensures r.title == tab.title
    ensures r.NavigateToTab? <==> tab.isPinned
    ensures r.AddToPinnedTabs? <==> !tab.isPinned
    ensures r.AddToPinnedTabs? ==> r.index == index && !r.dontNavigate
  {
    if tab.isPinned then NavigateToTab(tab.title) else AddToPinnedTabs(index, tab.title, false)
  }

  /** The side button: unpin a pinned tab, pin an unpinned one without opening it. */
  function SideClick(tab: TabProp, index: int): (r: Intent)
    ensures r.title == tab.title && !r.NavigateToTab? && r.index == index
    ensures r.RemoveFromPinnedTabs? <==> tab.isPinned
    ensures r.AddToPinnedTabs? <==> !tab.isPinned
    ensures r.AddToPinnedTabs? ==> r.dontNavigate
  {
    if tab.isPinned then RemoveFromPinnedTabs(index, tab.title) else AddToPinnedTabs(index, tab.title, true)
  }

  /** On an unpinned tab both buttons pin the same slot and differ only in navigating;
      no button of a pinned tab pins it, and only the side button unpins. */
  lemma ButtonsAgree(tab: TabProp, index: int)
    ensures !tab.isPinned ==>
      TitleClick(tab, index) == AddToPinnedTabs(index, tab.title, false) &&
      SideClick(tab, index) == AddToPinnedTabs(index, tab.title, true)
    ensures tab.isPinned ==>
      !TitleClick(tab, index).AddToPinnedTabs? && !SideClick(tab, index).AddToPinnedTabs?
    ensures !TitleClick(tab, index).RemoveFromPinnedTabs?
  {
  }
}

=== FILE: wrappers.dfy ===
/** An optional value: JavaScript's `undefined`/`null` next to a present value. */
module Wrappers {
  datatype Option<+T> = None | Some(value: T)
}
